=== FILE: README.md ===
# Keyboard matrix debounce and breathing LED, in Dafny

This project models the key-matrix core of two boards of a TMK-style keyboard
firmware:

- **cicade60** (`keyboard/cicade60_teensy_lc/matrix.c`): each call of
  `matrix_scan` reads one column bitmask per row, runs the counter-based
  debounce filter, and commits the candidate matrix once the counter runs out.
- **satan** (`keyboard/satan/matrix.c`): the same debounce filter, plus a
  breathing-LED brightness engine (`light_lvl_add`, `light_lvl_sub`,
  `light_lvl_exec`). On a commit, every row that gains a newly pressed key adds a
  saturating boost of 50 to the brightness, and every scan calls the engine once.

The model is functional: immutable state records and pure step functions, plus
loop-level methods that follow the firmware's own loops and are proved equal to
the step functions. Traces of scan passes are folded by `Run`.

| Dafny module | file | what it holds |
|---|---|---|
| `Ints` | `rows.dfy` | `uint8`/`uint16` as subset types, `Min`/`Max`, `Checked<T>` (a value or a division-by-zero trap) |
| `Rows` | `rows.dfy` | `Row` = `matrix_row_t` as `bv16`, the column test `Bit`, the press test `NewlyPressed`, `read_cols` |
| `Debounce` | `debounce.dfy` | the filter state (`matrix`, `candidate` = `matrix_debouncing`, `counter` = `debouncing`), one pass, traces and their lemmas, `matrix_is_on`, `matrix_get_row` |
| `Cicade60` | `cicade60.dfy` | the cicade60 `matrix_scan` loop |
| `Breathing` | `breathing.dfy` | the brightness engine and its invariant |
| `Satan` | `satan.dfy` | the satan board: debounce + boost-on-press + one engine call per scan |

Inputs that come from hardware are parameters: a pass takes `raw`, the column
bitmask read while each row is selected, and `ReadCols` takes the level of each
column's pin. The debounce window `DEBOUNCE` is a parameter (`window`, a `uint8`,
default `DEFAULT_WINDOW` = 5), because the source lets the build override it.

## Behaviour worth knowing

- The counter is decremented on every pass where it is non-zero, including the
  pass that re-armed it. A change on pass `k` that is then held is therefore
  committed at the end of pass `k + DEBOUNCE - 1` (`Debounce.SettleTiming`).
- A commit copies the whole candidate matrix into the committed one.
- `matrix_init` clears both matrices but does not reset the counter. The counter
  starts at `DEBOUNCE` only through its static initializer (`Debounce.PowerOn`).
- Brightness is not confined to [5, 200]. It starts at 0, and only an effective
  tick or a press boost changes it. A press boost can raise it up to 255, and the
  LED then shows more than 200 (`Breathing.BoostCanExceedUpper`). What the model
  proves is the lower bound of 5 after every effective tick.
- During a cool-down, the engine still applies the upper bounce, writes the LED
  and recomputes the cycle. Only the ±1 step is skipped.
- The engine's tick counter computes `t + 1` in 16 bits, so a counter of 65535
  would wrap to an effective tick (`Breathing.NextTick`). Every reachable counter
  stays below the cycle, which is at most 200, so the wrap never happens in a run.

## Model

| member | source | states |
|---|---|---|
| `Rows.ReadCols` | keyboard/cicade60_teensy_lc/matrix.c:200-219 | bit `c` of the result is set exactly when `c` is one of the board's columns and that column's pin reads low; no bit past the last column is ever set |
| `Rows.NewlyPressedIffSomeColumnGoesDown` | keyboard/satan/matrix.c:183-186 | the test `(matrix ^ debouncing) & debouncing` is non-zero exactly when some column goes from released to pressed, so rows with only releases or no change do not count |
| `Debounce.PowerOn` | keyboard/cicade60_teensy_lc/matrix.c:30-37 | at reset both matrices are all zero and the counter holds the window; the state is settled |
| `Debounce.Init` | keyboard/cicade60_teensy_lc/matrix.c:109-119 | `matrix_init` leaves every committed and every candidate row 0, so that no key reads pressed, and keeps the counter |
| `Debounce.Sample` | keyboard/cicade60_teensy_lc/matrix.c:130-140 | after the row loop the candidate is the raw reading; the counter is re-armed to the window when some row differed, and is untouched when none did |
| `Debounce.SampleRows` | keyboard/cicade60_teensy_lc/matrix.c:130-142 | the row-by-row loop (overwrite an unequal row, re-arm) computes the same candidate and counter as `Sample` |
| `Debounce.Countdown` | keyboard/cicade60_teensy_lc/matrix.c:144-152 | a non-zero counter drops by one; the candidate is copied into the committed matrix exactly on the pass where the counter goes from 1 to 0; otherwise the committed matrix is kept |
| `Debounce.Scan` | keyboard/cicade60_teensy_lc/matrix.c:128-155 | one pass: the candidate becomes the reading; the counter stays within the window; the committed matrix changes only on a committing pass, which replaces it with the reading; with the counter at 0 and no change the pass changes nothing; with a non-zero window, a settled state stays settled (a zero counter means the candidate has been committed) |
| `Debounce.Run` | keyboard/cicade60_teensy_lc/matrix.c:128-155 | after any sequence of passes the candidate is the last reading and the counter stays within the window |
| `Debounce.AfterEdge` | keyboard/cicade60_teensy_lc/matrix.c:134-151 | `m` passes into a held change the counter is `window - m`, and the committed matrix changes only on the `window`-th pass |
| `Debounce.SettleTiming` | keyboard/cicade60_teensy_lc/matrix.c:134-151 | a change on pass `k` held steady is committed at the end of pass `k + window - 1`; at the end of every earlier pass from `k` on, the committed matrix is what it was before pass `k` |
| `Debounce.Resting` | keyboard/cicade60_teensy_lc/matrix.c:144-152 | with the candidate already equal to a held reading, the filter commits it once the counter runs out and then stays put |
| `Debounce.HoldCommits` | keyboard/cicade60_teensy_lc/matrix.c:130-152 | holding one reading for at least `window` passes commits it, leaving counter 0 and candidate equal to the committed matrix |
| `Debounce.Reachable` | keyboard/cicade60_teensy_lc/matrix.c:130-152 | every state reached from reset is settled and keeps the counter within the window |
| `Debounce.ChatterNeverCommits` | keyboard/cicade60_teensy_lc/matrix.c:134-146 | if every pass reads something new and the window is at least 2, the committed matrix never changes and the counter stays at `window - 1` |
| `Debounce.ZeroWindowNeverCommits` | keyboard/cicade60_teensy_lc/matrix.c:136-146 | with `DEBOUNCE` = 0 the counter never leaves 0 and nothing is ever committed |
| `Debounce.IsOn` | keyboard/cicade60_teensy_lc/matrix.c:157-161 | `matrix_is_on(row, col)` is true exactly when column `col` of committed row `row` is set |
| `Debounce.GetRow` | keyboard/cicade60_teensy_lc/matrix.c:163-167 | `matrix_get_row(row)` is the committed row: it agrees with `matrix_is_on` on every column |
| `Cicade60.MatrixScan` | keyboard/cicade60_teensy_lc/matrix.c:128-155 | on the board's `MATRIX_ROWS` rows, the firmware's loops (compare rows, count down, copy row by row) perform exactly one debounce pass, and the call returns 1 |
| `Cicade60.SinglePressScenario` | keyboard/cicade60_teensy_lc/matrix.c:130-152 | on this 5-row board with the default window, key (2, 3) held from reset reads pressed after the fifth pass and not after the fourth |
| `Breathing.LevelAdd` | keyboard/satan/matrix.c:80-86 | `light_lvl_add(x)` gives min(255, level + x), never wrapping |
| `Breathing.LevelSub` | keyboard/satan/matrix.c:88-94 | `light_lvl_sub(x)` gives max(0, level - x), never wrapping |
| `Breathing.AddThenSub` | keyboard/satan/matrix.c:80-94 | away from saturation, subtracting `x` undoes adding `x` |
| `Breathing.Boost` | keyboard/satan/matrix.c:185 | a press boost only raises the level, saturating at 255, touches nothing else, and preserves the engine invariant |
| `Breathing.Step` | keyboard/satan/matrix.c:103-112 | on an effective tick a pending cool-down is decremented and the level kept; otherwise the level moves one step up or down in the current direction, saturating |
| `Breathing.Bounce` | keyboard/satan/matrix.c:114-117 | above 200 the direction turns to decreasing and the level drops by 4; otherwise nothing changes |
| `Breathing.Clamp` | keyboard/satan/matrix.c:119-123 | below 5 with no cool-down, the direction turns to increasing, the cool-down becomes 24 and the level becomes exactly 5; afterwards the level is at least 5 unless a cool-down is running |
| `Breathing.Recycle` | keyboard/satan/matrix.c:125-127 | the LED is set to the level and the call traps exactly when the level is 0; from a level of at least 5 the new cycle lies in [120, 160] |
| `Breathing.RecycleIsFloor` | keyboard/satan/matrix.c:127 | for a non-zero level the new cycle is 120 plus the largest `c` with `c * level <= 200`, the floor of `200 / level` stated without division |
| `Breathing.BrighterIsFaster` | keyboard/satan/matrix.c:127 | a brighter level never gives a longer cycle |
| `Breathing.NextTick` | keyboard/satan/matrix.c:98-99 | the counter after a call stays below the cycle; it is the successor modulo the cycle while `t + 1` fits in 16 bits, and 0 when the 16-bit sum wraps |
| `Breathing.Exec` | keyboard/satan/matrix.c:96-130 | the tick counter stays below the cycle; a non-wrapping call changes nothing but the counter; from the invariant no call divides by zero and the invariant holds afterwards; after an effective tick the level is at least 5, the LED shows it, and the cycle lies in [120, 160] |
| `Breathing.CoolingAtZeroDividesByZero` | keyboard/satan/matrix.c:103-127 | the cool-down clause of the invariant is necessary: a state meeting every other clause but cooling down at level 0 divides by zero on its next effective tick |
| `Breathing.BoostCanExceedUpper` | keyboard/satan/matrix.c:114-127 | from the state an effective tick leaves at level 200 (cycle 121), one call before the next effective tick, a boost followed by that tick shows 245 on the LED, above the upper limit |
| `Satan.PowerOn` | keyboard/satan/matrix.c:70-78 | the board at reset: the debounce state at reset and an engine state within the invariant |
| `Satan.Init` | keyboard/satan/matrix.c:145-162 | `matrix_init` clears both key matrices, and `led_init` sets the LED duty to 0, leaving the engine's variables alone |
| `Satan.BoostRows` | keyboard/satan/matrix.c:181-189 | the commit loop adds 50 for each row that gains a pressed key, saturating at 255, and changes nothing else |
| `Satan.Scan` | keyboard/satan/matrix.c:164-196 | one satan pass: the key matrices move exactly as the other board's debounce pass moves them; the engine's tick counter advances by exactly one; on a pass whose tick does not wrap, a commit adds 50 per row with a newly pressed key, saturating at 255, and a pass without a commit leaves the level alone; from the engine invariant the pass never traps and keeps the invariant, and after a wrapping tick the level is at least 5 and the LED shows it; the engine runs once, on the level after the commit's boosts, so the new engine state is `light_lvl_exec` of the boosted one and a pass that does not wrap keeps every other engine field |
| `Satan.MatrixScan` | keyboard/satan/matrix.c:164-196 | on the board's `MATRIX_ROWS` rows, the firmware's loops (compare rows, count down, boost then copy row by row, call the engine) perform exactly one satan pass; the call returns 1, or 0 on the division trap that `Satan.Run` rules out from reset |
| `Satan.CommitRows` | keyboard/satan/matrix.c:181-189 | the commit loop leaves the committed matrix equal to the candidate and applies exactly the boosts `BoostRows` describes |
| `Satan.Run` | keyboard/satan/matrix.c:164-196 | from a board whose engine keeps the invariant, in particular from reset, no sequence of passes divides by zero, the engine keeps its invariant, and the key matrices equal the shared debounce filter's run |

## Left out

- Pin and register plumbing: `select_row`, `unselect_rows`/`clear_rows`,
  `init_cols`, `led_init`'s timer set-up, the pin wiring macros, and the LED blink
  in the cicade60 `matrix_init`. They are hardware side effects. The model takes
  the raw row bitmasks as input. `led_init`'s zero duty is kept as `Satan.Init`.
- The satan `read_cols` differs from the cicade60 one only in which port bit
  feeds each column. `Rows.ReadCols` takes the column levels already in column
  order, so it covers both.
- Busy-wait delays (`wait_us`, `wait_ms`, `_delay_us`, `_delay_ms`). They are
  physical settle time and carry no logic.
- Debug output: `matrix_print`, the "bounce!" trace, `dprintf`, and cicade60's
  `debug_matrix = true` in `matrix_init`. They only observe.
- `matrix_rows` and `matrix_cols` return build constants. Each board module
  declares `MATRIX_ROWS` (5), which its `MatrixScan` requires of the reading. The
  column count (15 on cicade60, 14 on satan) is the length of the pin levels
  given to `Rows.ReadCols`.
- `keyboard/satan/keymap_kai.c` is constant tables only. The layer resolution and
  action dispatch that give those tables meaning live in framework code that is
  not part of this model.
- Debounce.IsOn: requires `col < 16`. On satan's 8-bit target, where `int` is
  16 bits wide, a shift by 16 or more is undefined. On cicade60's 32-bit target,
  `(matrix_row_t)1` is promoted to a 32-bit `int`, so `col` from 16 to 30 is well
  defined and the call returns false. The model does not cover that range.
- Satan.MatrixScan: returns 0 in the trap case. The firmware's behaviour on a
  division by zero is undefined. `Satan.Run` shows that the case cannot
  arise from reset.
- No upper bound on brightness is claimed. A press boost can push the level to
  255, as `Breathing.BoostCanExceedUpper` shows.

=== FILE: breathing.dfy ===
/** The breathing-LED brightness engine of the satan board.

    A tick counter runs modulo the cycle length; only on the call where it wraps to
    zero does the engine act: burn one cool-down tick or step the level by one in
    the current direction, bounce off the upper limit, clamp at the lower limit with
    a dwell, drive the LED, and recompute the cycle length from the new level. */
module Breathing {
  import opened Ints

  const UPPER: uint8 := 200
  const LOWER: uint8 := 5
  const CYCLE_BASE: uint16 := 120
  const INITIAL_CYCLE: uint16 := 200
  /** Cool-down ticks spent at the bottom of a breath. */
  const DWELL: uint8 := 24
  /** What the upper bounce takes back. */
  const BOUNCE_BACK: uint8 := 4
  /** What each row with a newly pressed key adds on a commit. */
  const PRESS_BOOST: uint8 := 50

  /** The shortest and longest cycle the engine can compute from a level of at least `LOWER`. */
  const CYCLE_MIN: int := 120
  const CYCLE_MAX: int := 160

  /** `light_cycle` is never zero: it starts at 200 and is only ever set to
      `200 / light_lvl + 120`. */
  type Cycle = c: uint16 | c > 0 witness 200

  /** The engine's state: `t` is the tick counter local to `light_lvl_exec`, `led`
      the duty value last written to the LED's compare register. */
  datatype Light = Light(t: uint16, cycle: Cycle, coolDown: uint8, increasing: bool, lvl: uint8, led: uint8)

  /** The state at reset. */
  const INITIAL: Light := Light(0, INITIAL_CYCLE, 0, true, 0, 0)

  /** `light_lvl_add`: brighten, saturating at 255 instead of wrapping. */
  function LevelAdd(lvl: uint8, x: uint8): (r: uint8)
    ensures r == Min(255, lvl + x)
  {
    if 255 - lvl >= x then lvl + x else 255
  }

  /** `light_lvl_sub`: dim, saturating at 0 instead of wrapping. */
  function LevelSub(lvl: uint8, x: uint8): (r: uint8)
    ensures r == Max(0, lvl - x)
  {
    if lvl >= x then lvl - x else 0
  }

  /** Away from saturation, dimming undoes brightening. */
  lemma AddThenSub(lvl: uint8, x: uint8)
    requires lvl + x <= 255
    ensures LevelSub(LevelAdd(lvl, x), x) == lvl
  {
  }

  /** A press boost applied to the engine; nothing but the level changes. */
  function Boost(l: Light, x: uint8): (r: Light)
    ensures r.lvl >= l.lvl && r.lvl == Min(255, l.lvl + x)
    ensures r.(lvl := l.lvl) == l
    ensures Inv(l) ==> Inv(r)
  {
    l.(lvl := LevelAdd(l.lvl, x))
  }

  /** The tick counter after one call of `light_lvl_exec`: `t + 1` is computed in
      16 bits (an `int` is 16 bits wide on the board's 8-bit target), then reduced
      modulo the cycle. Below the 16-bit limit this is the plain successor modulo the
      cycle; at 65535 the sum wraps to 0, which is an effective tick. */
  function NextTick(l: Light): (t: uint16)
    ensures t < l.cycle
    ensures l.t + 1 < 0x1_0000 ==> t == (l.t + 1) % l.cycle
    ensures l.t + 1 == 0x1_0000 ==> t == 0
  {
    (l.t + 1) % 0x1_0000 % l.cycle
  }

  /** This call of `light_lvl_exec` is an effective tick: the counter wraps to zero. */
  predicate Wraps(l: Light) {
    NextTick(l) == 0
  }

  /** Step of an effective tick: a pending cool-down is burnt instead of moving the
      level; otherwise the level moves one step in the current direction. */
  function Step(l: Light): (r: Light)
    ensures r.(lvl := l.lvl, coolDown := l.coolDown) == l
    ensures l.coolDown != 0 ==> r.coolDown == l.coolDown - 1 && r.lvl == l.lvl
    ensures l.coolDown == 0 && l.increasing ==> r.coolDown == 0 && r.lvl == Min(255, l.lvl + 1)
    ensures l.coolDown == 0 && !l.increasing ==> r.coolDown == 0 && r.lvl == Max(0, l.lvl - 1)
  {
    if l.coolDown != 0 then l.(coolDown := l.coolDown - 1)
    else if l.increasing then l.(lvl := LevelAdd(l.lvl, 1))
    else l.(lvl := LevelSub(l.lvl, 1))
  }

  /** Above the upper limit the breath turns downwards and gives back `BOUNCE_BACK`. */
  function Bounce(l: Light): (r: Light)
    ensures r.(lvl := l.lvl, increasing := l.increasing) == l
    ensures l.lvl > UPPER ==> !r.increasing && r.lvl == l.lvl - BOUNCE_BACK
    ensures l.lvl <= UPPER ==> r == l
  {
    if l.lvl > UPPER then l.(increasing := false, lvl := LevelSub(l.lvl, BOUNCE_BACK)) else l
  }

  /** Below the lower limit with no cool-down pending, the breath turns upwards, the
      dwell starts, and the level is set to exactly the lower limit. Afterwards the
      level is at least the lower limit unless a cool-down is still running. */
  function Clamp(l: Light): (r: Light)
    ensures r.lvl >= LOWER || r.coolDown != 0
    ensures l.lvl < LOWER && l.coolDown == 0 ==> r.increasing && r.coolDown == DWELL && r.lvl == LOWER
    ensures l.lvl < LOWER && l.coolDown == 0 ==> r.(increasing := l.increasing, coolDown := 0, lvl := l.lvl) == l
    ensures !(l.lvl < LOWER && l.coolDown == 0) ==> r == l
  {
    if l.lvl < LOWER && l.coolDown == 0 then l.(increasing := true, coolDown := DWELL, lvl := LOWER) else l
  }

  /** Drive the LED with the level and recompute the cycle length: `CYCLE_BASE` plus
      the whole number of times the level fits into 200 (`RecycleIsFloor`). The
      division by the level traps when the level is zero. */
  function Recycle(l: Light): (r: Checked<Light>)
    ensures r.DivisionByZero? <==> l.lvl == 0
    ensures r.Ok? ==> r.value.led == l.lvl && r.value.(led := l.led, cycle := l.cycle) == l
    ensures r.Ok? && l.lvl >= LOWER ==> CYCLE_MIN <= r.value.cycle <= CYCLE_MAX
  {
    if l.lvl == 0 then DivisionByZero
    else
      var q := 200 / l.lvl;
      QuotientBounds(200, l.lvl);
      Ok(l.(led := l.lvl, cycle := q + CYCLE_BASE))
  }

  /** The quotient of C's `/` on non-negative operands is the floor: the largest `q`
      with `q * d <= n`. A divisor of at least 5 leaves at most a fifth of `n`. */
  lemma QuotientBounds(n: nat, d: nat)
    requires d > 0
    ensures 0 <= n / d && (n / d) * d <= n < (n / d + 1) * d
    ensures d >= 5 ==> n / d <= n / 5
  {
    var q := n / d;
    assert n == q * d + n % d;
    if d >= 5 {
      MulMonotone(5, d, q);
      assert 5 * q <= n;
    }
  }

  /** The new cycle is `CYCLE_BASE` plus the floor of 200 over the level, stated
      without division: the largest `c` with `c * level <= 200`. */
  lemma RecycleIsFloor(l: Light)
    requires l.lvl > 0
    ensures var c := Recycle(l).value.cycle - CYCLE_BASE; 0 <= c && c * l.lvl <= 200 < (c + 1) * l.lvl
  {
    QuotientBounds(200, l.lvl);
  }

  /** A brighter level never gives a longer cycle: the breath speeds up as it brightens. */
  lemma BrighterIsFaster(l: Light, m: Light)
    requires 0 < l.lvl <= m.lvl
    ensures Recycle(m).value.cycle <= Recycle(l).value.cycle
  {
    var cl, cm := Recycle(l).value.cycle - CYCLE_BASE, Recycle(m).value.cycle - CYCLE_BASE;
    RecycleIsFloor(l);
    RecycleIsFloor(m);
    if cm > cl {
      MulMonotone(cl + 1, cm, m.lvl);
      MulMonotone(l.lvl, m.lvl, cl + 1);
      assert false;
    }
  }

  /** Multiplying by a non-negative factor keeps the order. */
  lemma MulMonotone(a: int, b: int, k: nat)
    requires a <= b
    ensures a * k <= b * k
  {
  }

  /** The invariant of every state the engine reaches from reset. */
  predicate Inv(l: Light) {
    && l.t < l.cycle
    && l.coolDown <= DWELL
    && (l.coolDown > 0 ==> l.lvl >= LOWER)
    && (l.cycle == INITIAL_CYCLE || (CYCLE_MIN <= l.cycle <= CYCLE_MAX && l.lvl >= LOWER))
  }

  /** `light_lvl_exec`. On a call where the counter does not wrap only the counter
      moves. From any state of the invariant the call never divides by zero and keeps
      the invariant, and an effective tick leaves the level at least `LOWER`, the LED
      showing the level, and a cycle within [`CYCLE_MIN`, `CYCLE_MAX`]. */
  function Exec(l: Light): (r: Checked<Light>)
    ensures r.Ok? ==> r.value.t < r.value.cycle
    ensures !Wraps(l) ==> r == Ok(l.(t := NextTick(l)))
    ensures Wraps(l) && r.Ok? ==> r.value.t == 0
    ensures Inv(l) ==> r.Ok? && Inv(r.value)
    ensures Inv(l) && Wraps(l) ==>
      r.Ok? && r.value.lvl >= LOWER && r.value.led == r.value.lvl
      && CYCLE_MIN <= r.value.cycle <= CYCLE_MAX
  {
    var t := NextTick(l);
    if t != 0 then Ok(l.(t := t))
    else Recycle(Clamp(Bounce(Step(l.(t := t)))))
  }

  /** The cool-down clause of the invariant is needed: a state that meets every other
      clause but is still cooling down at a level of zero divides by zero on its next
      effective tick. */
  lemma CoolingAtZeroDividesByZero()
    ensures var l := Light(199, 200, 2, true, 0, 0);
      && l.t < l.cycle
      && l.coolDown <= DWELL
      && (l.cycle == INITIAL_CYCLE || (CYCLE_MIN <= l.cycle <= CYCLE_MAX && l.lvl >= LOWER))
      && !(l.coolDown > 0 ==> l.lvl >= LOWER)
      && Exec(l) == DivisionByZero
  {
  }

  /** The level is not bounded by `UPPER`: a press boost near the top is only pulled
      back by the bounce and the step, and the LED shows more than `UPPER`. The
      starting state is the one an effective tick leaves at level 200 (cycle 121),
      one call before the next effective tick. */
  lemma BoostCanExceedUpper()
    ensures Inv(Light(120, 121, 0, false, 200, 200))
    ensures Recycle(Light(120, 200, 0, false, 200, 200)).value.cycle == 121
    ensures Exec(Boost(Light(120, 121, 0, false, 200, 200), PRESS_BOOST)).value.led == 245
  {
  }
}

=== FILE: cicade60.dfy ===
/** The cicade60 board (Teensy LC): five rows of fifteen columns, plain debounce. */
module Cicade60 {
  import opened Ints
  import opened Rows
  import Debounce

  /** `select_row` drives rows 0 to 4. */
  const MATRIX_ROWS: nat := 5

  /** `matrix_scan`, as the firmware runs it, given the column reading `raw[i]` taken
      while row `i` is selected: the row loop, then the countdown, and on the pass
      where the counter reaches zero the row-by-row copy into the committed matrix.
      It is one debounce pass and always returns 1. */
  method MatrixScan(s: Debounce.State, raw: seq<Row>, window: uint8) returns (r: Debounce.State, ret: uint8)
    requires |raw| == |s.candidate| == |s.matrix| == MATRIX_ROWS
    ensures r == Debounce.Scan(s, raw, window)
    ensures ret == 1
  {
    var candidate, counter := Debounce.SampleRows(s, raw, window);
    var matrix := s.matrix;
    if counter != 0 {
      counter := counter - 1;
      if counter == 0 {
        var i := 0;
        while i < |matrix|
          invariant i <= |matrix| == |candidate|
          invariant matrix[..i] == candidate[..i]
        {
          matrix := matrix[i := candidate[i]];
          i := i + 1;
        }
        assert matrix == matrix[..i];
      }
    }
    r := Debounce.State(matrix, candidate, counter);
    ret := 1;
  }

  /** A press on this board with the default window: key (2, 3) held from reset
      reads pressed after the fifth pass and not after the fourth. */
  lemma SinglePressScenario()
    ensures var pressed := [0, 0, 8, 0, 0];
      var reset := Debounce.PowerOn(MATRIX_ROWS, Debounce.DEFAULT_WINDOW);
      && |pressed| == MATRIX_ROWS
      && !Debounce.IsOn(Debounce.Run(reset, Debounce.Repeat(pressed, 4), Debounce.DEFAULT_WINDOW), 2, 3)
      && Debounce.IsOn(Debounce.Run(reset, Debounce.Repeat(pressed, 5), Debounce.DEFAULT_WINDOW), 2, 3)
      && Debounce.Run(reset, Debounce.Repeat(pressed, 5), Debounce.DEFAULT_WINDOW).matrix == pressed
  {
    var pressed: seq<Row> := [0, 0, 8, 0, 0];
    var s := Debounce.PowerOn(MATRIX_ROWS, Debounce.DEFAULT_WINDOW);
    assert s.candidate[2] != pressed[2];
    Debounce.AfterEdge(s, pressed, Debounce.DEFAULT_WINDOW, 4);
    Debounce.AfterEdge(s, pressed, Debounce.DEFAULT_WINDOW, 5);
  }
}

=== FILE: debounce.dfy ===
/** The counter-based debounce filter that both boards' `matrix_scan` share.

    Each pass reads one raw row per matrix row. A row that differs from the
    candidate ("debouncing") matrix overwrites it and re-arms the counter to the
    window (`DEBOUNCE`). The counter is then decremented once per pass, and on the
    pass where it reaches zero the whole candidate matrix is committed. */
module Debounce {
  import opened Ints
  import opened Rows

  /** `DEBOUNCE` when the build does not override it. */
  const DEFAULT_WINDOW: uint8 := 5

  /** `matrix` is the committed matrix, `candidate` is `matrix_debouncing`, and
      `counter` is `debouncing`. */
  datatype State = State(matrix: seq<Row>, candidate: seq<Row>, counter: uint8)

  predicate Shaped(s: State, rows: nat) {
    |s.matrix| == rows && |s.candidate| == rows
  }

  /** The filter is at rest only when nothing is left to commit: a zero counter
      means the committed matrix already holds the candidate. */
  predicate Settled(s: State) {
    s.counter == 0 ==> s.matrix == s.candidate
  }

  /** Some row of the new reading differs from the candidate. */
  predicate Bounced(candidate: seq<Row>, raw: seq<Row>)
    requires |raw| == |candidate|
  {
    exists i :: 0 <= i < |raw| && candidate[i] != raw[i]
  }

  /** The state at reset: static storage is zero, and `debouncing` starts at the window. */
  function PowerOn(rows: nat, window: uint8): (s: State)
    ensures Shaped(s, rows) && s.counter == window
    ensures forall i :: 0 <= i < rows ==> s.matrix[i] == 0 && s.candidate[i] == 0
    ensures Settled(s)
  {
    State(Zeros(rows), Zeros(rows), window)
  }

  /** `matrix_init`: every committed and candidate row is released. The counter is
      not reset, so it keeps whatever value it had. */
  function Init(s: State): (r: State)
    requires |s.candidate| == |s.matrix|
    ensures Shaped(r, |s.matrix|)
    ensures forall i :: 0 <= i < |s.matrix| ==> r.matrix[i] == 0 && r.candidate[i] == 0
    ensures forall i, c: Col :: 0 <= i < |s.matrix| ==> !IsOn(r, i, c)
    ensures r.counter == s.counter
  {
    State(Zeros(|s.matrix|), Zeros(|s.matrix|), s.counter)
  }

  /** The row loop of one pass: afterwards the candidate is the raw reading, and the
      counter holds the window exactly when some row differed. */
  function Sample(s: State, raw: seq<Row>, window: uint8): (r: State)
    requires |raw| == |s.candidate|
    ensures r.matrix == s.matrix && r.candidate == raw
    ensures Bounced(s.candidate, raw) ==> r.counter == window
    ensures !Bounced(s.candidate, raw) ==> r.counter == s.counter
  {
    State(s.matrix, raw, if raw != s.candidate then window else s.counter)
  }

  /** The tail of one pass: a non-zero counter is decremented, and the candidate is
      committed on the pass where it goes from 1 to 0. */
  function Countdown(s: State): (r: State)
    ensures r.candidate == s.candidate
    ensures r.counter == Max(s.counter - 1, 0)
    ensures s.counter == 1 ==> r.matrix == s.candidate
    ensures s.counter != 1 ==> r.matrix == s.matrix
  {
    if s.counter == 0 then s
    else if s.counter - 1 != 0 then s.(counter := s.counter - 1)
    else State(s.candidate, s.candidate, 0)
  }

  /** The pass commits: after sampling, the counter is 1 and is about to reach 0. */
  predicate Commits(s: State, raw: seq<Row>, window: uint8)
    requires |raw| == |s.candidate|
  {
    Sample(s, raw, window).counter == 1
  }

  /** One pass of `matrix_scan` on the debounce state. */
  function Scan(s: State, raw: seq<Row>, window: uint8): (r: State)
    requires |raw| == |s.candidate| == |s.matrix|
    ensures |r.matrix| == |s.matrix| && r.candidate == raw
    ensures s.counter <= window ==> r.counter <= window
    ensures Commits(s, raw, window) ==> r.matrix == raw && r.counter == 0
    ensures !Commits(s, raw, window) ==> r.matrix == s.matrix
    ensures s.counter == 0 && raw == s.candidate ==> r == s
    ensures 1 <= window && Settled(s) ==> Settled(r)
  {
    Countdown(Sample(s, raw, window))
  }

  /** The row loop of `matrix_scan`, as the firmware runs it: row by row, an
      unequal row overwrites the candidate row and re-arms the counter. */
  method SampleRows(s: State, raw: seq<Row>, window: uint8) returns (candidate: seq<Row>, counter: uint8)
    requires |raw| == |s.candidate|
    ensures State(s.matrix, candidate, counter) == Sample(s, raw, window)
  {
    candidate := s.candidate;
    counter := s.counter;
    var i := 0;
    while i < |raw|
      invariant i <= |raw| && |candidate| == |raw|
      invariant candidate[..i] == raw[..i] && candidate[i..] == s.candidate[i..]
      invariant counter == if Bounced(s.candidate[..i], raw[..i]) then window else s.counter
    {
      if candidate[i] != raw[i] {
        candidate := candidate[i := raw[i]];
        counter := window;
      }
      assert s.candidate[..i + 1] == s.candidate[..i] + [s.candidate[i]];
      assert raw[..i + 1] == raw[..i] + [raw[i]];
      i := i + 1;
    }
    assert candidate == candidate[..i] && raw == raw[..i] && s.candidate == s.candidate[..i];
  }

  /** The state at the end of the first `n` passes of `raws`. */
  function EndOf(s: State, raws: seq<seq<Row>>, window: uint8, n: nat): State
    requires |s.candidate| == |s.matrix| && n <= |raws|
    requires forall j :: 0 <= j < |raws| ==> |raws[j]| == |s.matrix|
  {
    Run(s, raws[..n], window)
  }

  /** The state at the end of a sequence of passes, `raws[j]` being the reading of pass `j`. */
  function Run(s: State, raws: seq<seq<Row>>, window: uint8): (r: State)
    requires |s.candidate| == |s.matrix|
    requires forall j :: 0 <= j < |raws| ==> |raws[j]| == |s.matrix|
    ensures Shaped(r, |s.matrix|)
    ensures |raws| > 0 ==> r.candidate == raws[|raws| - 1]
    ensures s.counter <= window ==> r.counter <= window
    decreases |raws|
  {
    if |raws| == 0 then s
    else Scan(Run(s, raws[..|raws| - 1], window), raws[|raws| - 1], window)
  }

  /** The same reading for `n` passes. */
  function Repeat(raw: seq<Row>, n: nat): (raws: seq<seq<Row>>)
    ensures |raws| == n && forall j :: 0 <= j < n ==> raws[j] == raw
  {
    seq(n, _ => raw)
  }

  /** Running two stretches of passes is running the first, then the second from there. */
  lemma {:induction false} RunAppend(s: State, a: seq<seq<Row>>, b: seq<seq<Row>>, window: uint8)
    requires |s.candidate| == |s.matrix|
    requires forall j :: 0 <= j < |a| ==> |a[j]| == |s.matrix|
    requires forall j :: 0 <= j < |b| ==> |b[j]| == |s.matrix|
    ensures Run(s, a + b, window) == Run(Run(s, a, window), b, window)
    decreases |b|
  {
    if |b| == 0 {
      assert a + b == a;
    } else {
      var ab := a + b;
      assert ab[..|ab| - 1] == a + b[..|b| - 1];
      assert ab[|ab| - 1] == b[|b| - 1];
      RunAppend(s, a, b[..|b| - 1], window);
    }
  }

  /** A change followed by a steady reading: `m` passes after the change (the
      changing pass included) the counter is `window - m`, and the candidate is
      committed on the `window`-th pass and not before. */
  lemma {:induction false} AfterEdge(t: State, raw: seq<Row>, window: uint8, m: nat)
    requires |t.candidate| == |t.matrix| == |raw|
    requires raw != t.candidate
    requires 1 <= m <= window
    ensures Run(t, Repeat(raw, m), window)
         == State(if m == window then raw else t.matrix, raw, window - m)
  {
    var raws := Repeat(raw, m);
    assert raws[..m - 1] == Repeat(raw, m - 1);
    if m == 1 {
      assert Run(t, raws[..0], window) == t;
      assert Bounced(t.candidate, raw) by {
        var i :| 0 <= i < |raw| && t.candidate[i] != raw[i];
      }
    } else {
      AfterEdge(t, raw, window, m - 1);
      var before := Run(t, Repeat(raw, m - 1), window);
      assert !Bounced(before.candidate, raw);
    }
  }

  /** Timing of a commit. If the reading of pass `k` differs from the candidate and
      the same reading is then held, the committed matrix equals it at the end of
      pass `k + window - 1`, and at the end of every earlier pass from `k` on it is
      still what it was before pass `k`. */
  lemma SettleTiming(s: State, raws: seq<seq<Row>>, window: uint8, k: nat)
    requires |s.candidate| == |s.matrix|
    requires forall j :: 0 <= j < |raws| ==> |raws[j]| == |s.matrix|
    requires 1 <= window && k + window <= |raws|
    requires raws[k] != Run(s, raws[..k], window).candidate
    requires forall j :: k <= j < k + window ==> raws[j] == raws[k]
    ensures Run(s, raws[..k + window], window).matrix == raws[k]
    ensures forall n :: k < n < k + window ==>
              EndOf(s, raws, window, n).matrix == Run(s, raws[..k], window).matrix
  {
    var t := Run(s, raws[..k], window);
    HeldAfterEdge(s, raws, window, k, window);
    forall n | k < n < k + window
      ensures EndOf(s, raws, window, n).matrix == t.matrix
    {
      HeldAfterEdge(s, raws, window, k, n - k);
    }
  }

  /** `m` passes of a held reading that starts with a change, seen inside a longer run. */
  lemma HeldAfterEdge(s: State, raws: seq<seq<Row>>, window: uint8, k: nat, m: nat)
    requires |s.candidate| == |s.matrix|
    requires forall j :: 0 <= j < |raws| ==> |raws[j]| == |s.matrix|
    requires 1 <= m <= window && k + window <= |raws|
    requires raws[k] != Run(s, raws[..k], window).candidate
    requires forall j :: k <= j < k + window ==> raws[j] == raws[k]
    ensures EndOf(s, raws, window, k + m)
         == State(if m == window then raws[k] else Run(s, raws[..k], window).matrix, raws[k], window - m)
  {
    assert raws[..k + m] == raws[..k] + Repeat(raws[k], m);
    RunAppend(s, raws[..k], Repeat(raws[k], m), window);
    AfterEdge(Run(s, raws[..k], window), raws[k], window, m);
  }

  /** A settled filter whose candidate is already the held reading commits it after
      at most `counter` passes and then stays put. */
  lemma {:induction false} Resting(t: State, raw: seq<Row>, window: uint8, m: nat)
    requires |t.candidate| == |t.matrix| == |raw|
    requires t.candidate == raw && Settled(t)
    ensures Run(t, Repeat(raw, m), window)
         == if m >= t.counter then State(raw, raw, 0) else t.(counter := t.counter - m)
  {
    var raws := Repeat(raw, m);
    if m > 0 {
      assert raws[..m - 1] == Repeat(raw, m - 1);
      Resting(t, raw, window, m - 1);
      var before := Run(t, Repeat(raw, m - 1), window);
      assert !Bounced(before.candidate, raw);
    }
  }

  /** Holding one reading for at least `window` passes commits it, from any settled
      state whose counter is within the window. */
  lemma HoldCommits(s: State, raw: seq<Row>, window: uint8, n: nat)
    requires |s.candidate| == |s.matrix| == |raw|
    requires 1 <= window && s.counter <= window && Settled(s)
    requires n >= window
    ensures Run(s, Repeat(raw, n), window) == State(raw, raw, 0)
  {
    assert Repeat(raw, n) == Repeat(raw, 1) + Repeat(raw, n - 1);
    RunAppend(s, Repeat(raw, 1), Repeat(raw, n - 1), window);
    assert Repeat(raw, 1)[..0] == [];
    var t := Run(s, Repeat(raw, 1), window);
    assert t == Scan(s, raw, window);
    assert t.counter <= window - 1 by {
      if !Bounced(s.candidate, raw) {
        assert raw == s.candidate;
      }
    }
    Resting(t, raw, window, n - 1);
  }

  /** Every state reached from power-on is settled and keeps its counter within the window. */
  lemma {:induction false} Reachable(rows: nat, raws: seq<seq<Row>>, window: uint8)
    requires 1 <= window
    requires forall j :: 0 <= j < |raws| ==> |raws[j]| == rows
    ensures Settled(Run(PowerOn(rows, window), raws, window))
    ensures Run(PowerOn(rows, window), raws, window).counter <= window
    decreases |raws|
  {
    if |raws| > 0 {
      var prefix := raws[..|raws| - 1];
      Reachable(rows, prefix, window);
    }
  }

  /** Chatter rejection: when every pass reads something other than the previous
      pass (the first pass, something other than the candidate) and the window is
      at least 2, the committed matrix never changes. */
  lemma {:induction false} ChatterNeverCommits(s: State, raws: seq<seq<Row>>, window: uint8)
    requires |s.candidate| == |s.matrix|
    requires forall j :: 0 <= j < |raws| ==> |raws[j]| == |s.matrix|
    requires window >= 2
    requires |raws| > 0 ==> raws[0] != s.candidate
    requires forall j :: 1 <= j < |raws| ==> raws[j] != raws[j - 1]
    ensures Run(s, raws, window).matrix == s.matrix
    ensures |raws| > 0 ==> Run(s, raws, window).counter == window - 1
    decreases |raws|
  {
    if |raws| > 0 {
      var n := |raws| - 1;
      var prefix := raws[..n];
      ChatterNeverCommits(s, prefix, window);
      var before := Run(s, prefix, window);
      assert before.candidate != raws[n];
      assert Bounced(before.candidate, raws[n]);
    }
  }

  /** With a window of 0 the counter never leaves 0 and nothing is ever committed. */
  lemma {:induction false} ZeroWindowNeverCommits(s: State, raws: seq<seq<Row>>)
    requires |s.candidate| == |s.matrix| && s.counter == 0
    requires forall j :: 0 <= j < |raws| ==> |raws[j]| == |s.matrix|
    ensures Run(s, raws, 0).matrix == s.matrix
    ensures Run(s, raws, 0).counter == 0
    decreases |raws|
  {
    if |raws| > 0 {
      ZeroWindowNeverCommits(s, raws[..|raws| - 1]);
    }
  }

  /** `matrix_is_on`: the firmware's mask test reads column `col` of committed row `row`. */
  function IsOn(s: State, row: nat, col: Col): (on: bool)
    requires row < |s.matrix|
    ensures on <==> Bit(s.matrix[row], col)
  {
    s.matrix[row] & (1 << col) != 0
  }

  /** `matrix_get_row`: committed row `row`, which agrees with `matrix_is_on` on every column. */
  function GetRow(s: State, row: nat): (r: Row)
    requires row < |s.matrix|
    ensures forall c: Col :: Bit(r, c) <==> IsOn(s, row, c)
  {
    s.matrix[row]
  }
}

=== FILE: rows.dfy ===
/** Fixed-width integers of the firmware, written out as subset types of `int`. */
module Ints {
  type uint8 = x: int | 0 <= x < 0x100
  type uint16 = x: int | 0 <= x < 0x1_0000

  function Min(a: int, b: int): int { if a <= b then a else b }
  function Max(a: int, b: int): int { if a <= b then b else a }

  /** The outcome of a computation that divides: a value, or the trap of a zero divisor. */
  datatype Checked<T> = Ok(value: T) | DivisionByZero
}

/** One row of the key matrix: a bitmask with one bit per column, 1 = pressed. */
module Rows {
  /** `matrix_row_t`; both boards have at most 16 columns (15 and 14). */
  type Row = bv16

  /** A column index within a row. It is a bit-vector so that shifting by it stays
      a bit-vector operation. */
  type Col = c: bv16 | c < 16

  /** Column `c` of row `r` is set. */
  predicate Bit(r: Row, c: Col) {
    (r >> c) & 1 == 1
  }

  /** `n` released rows. */
  function Zeros(n: nat): (z: seq<Row>)
    ensures |z| == n
    ensures forall i :: 0 <= i < n ==> z[i] == 0
  {
    seq(n, _ => 0)
  }

  /** The release of every key: no column of the zero row is set. */
  lemma ZeroHasNoBit(c: Col)
    ensures !Bit(0, c)
  {
  }

  /** The commit test of the satan board: the candidate row sets some bit that the
      committed row does not have. */
  predicate NewlyPressed(committed: Row, candidate: Row)
  {
    (committed ^ candidate) & candidate != 0
  }

  /** The press test holds exactly when some column goes from released to pressed;
      a row with only releases, or with no change, is not a new press. */
  lemma NewlyPressedIffSomeColumnGoesDown(committed: Row, candidate: Row)
    ensures NewlyPressed(committed, candidate)
        <==> exists c: Col :: !Bit(committed, c) && Bit(candidate, c)
  {
    var d := (committed ^ candidate) & candidate;
    if d != 0 {
      var c := LowestSetBit(d);
      GoesDownAt(committed, candidate, c);
    } else {
      forall c: Col ensures !(!Bit(committed, c) && Bit(candidate, c)) {
        GoesDownAt(committed, candidate, c);
        ZeroHasNoBit(c);
      }
    }
  }

  lemma GoesDownAt(committed: Row, candidate: Row, c: Col)
    ensures Bit((committed ^ candidate) & candidate, c) <==> !Bit(committed, c) && Bit(candidate, c)
  {
  }

  /** The lowest set column of a non-zero row. */
  function LowestSetBit(r: Row): (c: Col)
    requires r != 0
    ensures Bit(r, c)
    ensures forall b: Col :: b < c ==> !Bit(r, b)
  {
    if r & 0x0001 != 0 then 0 else if r & 0x0002 != 0 then 1
    else if r & 0x0004 != 0 then 2 else if r & 0x0008 != 0 then 3
    else if r & 0x0010 != 0 then 4 else if r & 0x0020 != 0 then 5
    else if r & 0x0040 != 0 then 6 else if r & 0x0080 != 0 then 7
    else if r & 0x0100 != 0 then 8 else if r & 0x0200 != 0 then 9
    else if r & 0x0400 != 0 then 10 else if r & 0x0800 != 0 then 11
    else if r & 0x1000 != 0 then 12 else if r & 0x2000 != 0 then 13
    else if r & 0x4000 != 0 then 14 else 15
  }

  /** Setting bit `i` of a row sets column `i` and leaves every other column as it was. */
  lemma SetColumnAt(r: Row, i: Col, c: Col)
    ensures Bit(r | (1 << i), c) <==> Bit(r, c) || c == i
  {
  }

  /** `read_cols`: column `c` is pressed exactly when the pin wired to it reads low.
      `high[c]` is the level of column `c`'s pin (true = high); columns past the
      board's last one are never set. */
  method ReadCols(high: seq<bool>) returns (r: Row)
    requires |high| <= 16
    ensures forall c: Col :: Bit(r, c) <==> (c as int) < |high| && !high[c]
  {
    r := 0;
    var i: bv16 := 0;
    while (i as int) < |high|
      invariant (i as int) <= |high| && i <= 16
      invariant forall c: Col :: Bit(r, c) <==> c < i && !high[c]
    {
      ghost var before := r;
      if !high[i] {
        r := r | (1 << i);
      }
      forall c: Col ensures Bit(r, c) <==> c < i + 1 && !high[c] {
        SetColumnAt(before, i, c);
        if c != i {
          assert Bit(r, c) == Bit(before, c);
          assert c < i + 1 <==> c < i;
        }
      }
      i := i + 1;
    }
  }
}

=== FILE: satan.dfy ===
/** The satan board: the shared debounce filter, a brightness boost for every row
    that gains a pressed key on a commit, and one breathing-engine call per scan. */
module Satan {
  import opened Ints
  import opened Rows
  import Debounce
  import opened Breathing

  /** `select_row` drives rows 0 to 4. */
  const MATRIX_ROWS: nat := 5

  datatype Board = Board(keys: Debounce.State, light: Light)

  /** The board at reset. */
  function PowerOn(rows: nat, window: uint8): (b: Board)
    ensures b.keys == Debounce.PowerOn(rows, window) && Inv(b.light)
  {
    Board(Debounce.PowerOn(rows, window), INITIAL)
  }

  /** `matrix_init`: the key matrices are released, and `led_init` writes a duty of 0
      to the LED; the engine's own variables are untouched. */
  function Init(b: Board): (r: Board)
    requires |b.keys.candidate| == |b.keys.matrix|
    ensures r.keys == Debounce.Init(b.keys)
    ensures r.light.led == 0 && r.light.(led := b.light.led) == b.light
  {
    Board(Debounce.Init(b.keys), b.light.(led := 0))
  }

  /** The number of rows whose candidate gains a key the committed row does not have. */
  function NewPressRows(committed: seq<Row>, candidate: seq<Row>): (n: nat)
    requires |committed| == |candidate|
    ensures n <= |candidate|
    decreases |candidate|
  {
    if |candidate| == 0 then 0
    else
      var last := |candidate| - 1;
      NewPressRows(committed[..last], candidate[..last])
        + if NewlyPressed(committed[last], candidate[last]) then 1 else 0
  }

  /** The boosts of a commit, row 0 first: each row with a newly pressed key adds
      `PRESS_BOOST`. Together they add `PRESS_BOOST` per such row, saturating at 255,
      and change nothing else. */
  function BoostRows(committed: seq<Row>, candidate: seq<Row>, l: Light): (r: Light)
    requires |committed| == |candidate|
    ensures r == l.(lvl := Min(255, l.lvl + PRESS_BOOST * NewPressRows(committed, candidate)))
    decreases |candidate|
  {
    if |candidate| == 0 then l
    else
      var last := |candidate| - 1;
      var before := BoostRows(committed[..last], candidate[..last], l);
      if NewlyPressed(committed[last], candidate[last]) then Boost(before, PRESS_BOOST) else before
  }

  /** One pass of the satan `matrix_scan`: the debounce pass, with the commit's boosts
      applied to the engine, and then `light_lvl_exec`.
      - The key matrices move exactly as the other board's debounce pass moves them.
      - From the engine invariant nothing traps and the invariant is kept.
      - The engine runs exactly once: its tick counter advances by one.
      - On a pass whose tick does not wrap, a commit adds `PRESS_BOOST` per row that
        gains a pressed key, saturating at 255, and a pass without commit leaves the
        level alone.
      - From the engine invariant, a pass whose tick wraps leaves the level at least
        `LOWER` with the LED showing it.
      - The engine runs once, after the commit's boosts: the new engine state is
        `light_lvl_exec` applied to the boosted one, so a pass that does not wrap
        keeps every engine field but the counter and the level. */
  function Scan(b: Board, raw: seq<Row>, window: uint8): (r: Checked<Board>)
    requires |raw| == |b.keys.candidate| == |b.keys.matrix|
    ensures r.Ok? ==> r.value.keys == Debounce.Scan(b.keys, raw, window)
    ensures Inv(b.light) ==> r.Ok? && Inv(r.value.light)
    ensures r.Ok? ==> r.value.light.t == NextTick(b.light)
    ensures !Wraps(b.light) ==> r.Ok?
    ensures !Wraps(b.light) && Debounce.Commits(b.keys, raw, window) ==>
      r.value.light.lvl == Min(255, b.light.lvl + PRESS_BOOST * NewPressRows(b.keys.matrix, raw))
    ensures !Wraps(b.light) && !Debounce.Commits(b.keys, raw, window) ==>
      r.value.light.lvl == b.light.lvl
    ensures Inv(b.light) && Wraps(b.light) ==>
      r.Ok? && r.value.light.lvl >= LOWER && r.value.light.led == r.value.light.lvl
    ensures var boosted := if Debounce.Commits(b.keys, raw, window)
        then b.light.(lvl := Min(255, b.light.lvl + PRESS_BOOST * NewPressRows(b.keys.matrix, raw)))
        else b.light;
      (r.Ok? <==> Exec(boosted).Ok?) && (r.Ok? ==> Exec(boosted) == Ok(r.value.light))
  {
    var sampled := Debounce.Sample(b.keys, raw, window);
    var boosted := if Debounce.Commits(b.keys, raw, window)
      then BoostRows(sampled.matrix, sampled.candidate, b.light) else b.light;
    match Exec(boosted)
    case Ok(light) => Ok(Board(Debounce.Countdown(sampled), light))
    case DivisionByZero => DivisionByZero
  }

  /** `matrix_scan` as the firmware runs it: the row loop, the countdown, the commit
      loop that boosts before copying each row, then the engine call. It returns 1,
      or 0 where the division traps. */
  method MatrixScan(b: Board, raw: seq<Row>, window: uint8) returns (r: Checked<Board>, ret: uint8)
    requires |raw| == |b.keys.candidate| == |b.keys.matrix| == MATRIX_ROWS
    ensures r == Scan(b, raw, window)
    ensures ret == if r.Ok? then 1 else 0
  {
    var candidate, counter := Debounce.SampleRows(b.keys, raw, window);
    var matrix := b.keys.matrix;
    var light := b.light;
    if counter != 0 {
      counter := counter - 1;
      if counter == 0 {
        matrix, light := CommitRows(b.keys.matrix, candidate, b.light);
      }
    }
    var lit := Exec(light);
    match lit
    case Ok(l) =>
      r := Ok(Board(Debounce.State(matrix, candidate, counter), l));
      ret := 1;
    case DivisionByZero =>
      r := DivisionByZero;
      ret := 0;
  }

  /** The commit loop of `matrix_scan`: row by row, boost the engine when the row
      gains a pressed key, then copy the candidate row into the committed matrix. */
  method CommitRows(committed: seq<Row>, candidate: seq<Row>, l: Light) returns (matrix: seq<Row>, r: Light)
    requires |committed| == |candidate|
    ensures matrix == candidate
    ensures r == BoostRows(committed, candidate, l)
  {
    matrix, r := committed, l;
    var i := 0;
    while i < |matrix|
      invariant i <= |matrix| == |candidate|
      invariant matrix[..i] == candidate[..i] && matrix[i..] == committed[i..]
      invariant r == BoostRows(committed[..i], candidate[..i], l)
    {
      assert committed[..i + 1][..i] == committed[..i];
      assert candidate[..i + 1][..i] == candidate[..i];
      assert matrix[i] == committed[i];
      if NewlyPressed(matrix[i], candidate[i]) {
        r := Boost(r, PRESS_BOOST);
      }
      matrix := matrix[i := candidate[i]];
      i := i + 1;
    }
    assert matrix == matrix[..i];
    assert committed[..i] == committed && candidate[..i] == candidate;
  }

  /** The board's state at the end of a sequence of passes; a trap ends the run. From
      a board whose engine keeps the invariant, in particular from reset, no run
      divides by zero, the engine keeps its invariant, and the key matrices follow
      exactly the debounce filter of the other board. */
  function Run(b: Board, raws: seq<seq<Row>>, window: uint8): (r: Checked<Board>)
    requires |b.keys.candidate| == |b.keys.matrix|
    requires forall j :: 0 <= j < |raws| ==> |raws[j]| == |b.keys.matrix|
    ensures r.Ok? ==> r.value.keys == Debounce.Run(b.keys, raws, window)
    ensures Inv(b.light) ==> r.Ok? && Inv(r.value.light)
    decreases |raws|
  {
    if |raws| == 0 then Ok(b)
    else
      match Run(b, raws[..|raws| - 1], window)
      case Ok(before) => Scan(before, raws[|raws| - 1], window)
      case DivisionByZero => DivisionByZero
  }
}
